=== FILE: README.md ===
# Restore-from-backup, modelled in Dafny

`restore_from_backup.py` restores the data of one of two applications (CRM or
Sales) from a zip backup. It checks that the archive exists and works out the
application: from `--app`, or from a marker member in the archive. It then
works out the data directory and database path. A dry run only reports what
it would do. Otherwise the script extracts the archive and copies the least
`database/*.db` file over the database, after saving the old database as
`<name>.bak_<timestamp>`. Last, it copies the `storage/` tree into the data
directory.

This project models that decision logic as pure functions over explicit
inputs:

- `Common`: `Option` and file contents as bytes.
- `Strings`: Python's `startswith` and `endswith`, filtering a name list by
  prefix, and Python's code-point order on strings (`Below`). `Least` is
  `sorted(...)[0]`. At line 134 `sorted` orders `Path` objects by their
  parts. On POSIX that is the code-point order of their names here, because
  every candidate has the same parent, `database/`.
- `Paths`: POSIX pathlib paths (`PurePosixPath`) as a root flag plus
  normalised components.
  - `ToPath` is `Path(s)`; `Render` is `str(p)`; they round-trip.
  - `Suffix`, `ReplaceSuffix`: `.suffix` and `.with_suffix`.
  - `Resolve` turns a path into a file-system key, relative to a working
    directory.
- `Archives`: the archive is its members (name and content) in archive order.
  - `Extract` is the regular-file tree that `extractall` leaves.
  - `Exists` is `Path.exists()` inside that tree.
  - `Under` is the files below a directory.
  - `DbCandidates` is the `database/*.db` glob.
- `Detection`: `_detect_app` and `args.app or _detect_app(...)`.
- `Locations`: `_crm_paths` and `_sales_paths`. The environment is a map, and
  `get_storage_dir()` and `load_config().data_dir` are parameters.
- `Files`: the file system is a map from absolute components to contents, and
  directories are implicit.
  - `BackupExistingDb` is `_backup_existing_db`.
  - `CopyTree` is `_copy_tree` over the whole tree at once.
  - `CopyTreeInOrder` is the same copy done file by file, in any walk order.
- `Restore`: `Main` is `main` from line 99 on. It maps the arguments, the host
  (environment, working directory, injected directories, timestamp), the
  archive and the file system to an exit code, a report and the new file
  system. `Execute` is the restore proper. `Restore.MainExecutes` shows that
  a full run is `Execute` at the resolved locations, so the `Execute…` lemmas
  describe full runs.

`main` itself returns only 0 and 2. A database path with no name can still
stop a run: `DB_PATH` set to "", "." or "/", or `PS_SALES_DB_URL` set to
"sqlite:///" or "/". Such a path always exists as a directory. When the
archive has a `database/*.db` candidate and the run is not a dry run, the
backup step calls `with_suffix` on it, which raises ValueError. The process
then exits with Python's status 1 before anything is written. The model
follows the code: `Report.DbPathHasNoName`, exit code 1, file system
unchanged. Without a candidate, or in a dry run, the backup step is never
reached and such a path does no harm.

## Model

| member | source | states |
|---|---|---|
| Detection.DetectApp | restore_from_backup.py:18-28 | crm exactly when the crm marker is a member name; sales exactly when only the sales marker is; none when neither is, so crm wins when both are present |
| Detection.DetectSeesOnlyNameSet | restore_from_backup.py:22-23 | detection depends only on which names occur, not on their order or repetition |
| Detection.DetectIgnoresOtherMembers | restore_from_backup.py:22-28 | adding members other than the two markers never changes the verdict |
| Detection.ChooseApp | restore_from_backup.py:105 | an explicit `--app` is the result; without one the detected app is |
| Detection.ExplicitAppIgnoresArchive | restore_from_backup.py:105 | an explicit `--app` is used whatever members the archive has |
| Locations.CrmPaths | restore_from_backup.py:31-38 | data dir is the non-empty override, else `APP_STORAGE_DIR` if present, else the storage default; DB path is `DB_PATH` if present, else data dir / "ps_crm.db" after the round trip through `str` |
| Locations.CrmDbPathIgnoresOverride | restore_from_backup.py:37 | with `DB_PATH` set, the CRM DB path does not depend on the override |
| Locations.CrmEmptyStorageVarIsUsed | restore_from_backup.py:35 | an empty `APP_STORAGE_DIR` is used, not skipped: it names the working directory |
| Locations.SalesPaths | restore_from_backup.py:41-52 | data dir is the non-empty override, else the configured dir; an unset or empty URL gives data dir / "ps_sales.db"; a non-empty URL without the sqlite prefix is the path verbatim |
| Locations.SalesSqliteUrlStripped | restore_from_backup.py:46-49 | a URL `sqlite:///` + rest gives the path `rest`, exactly that prefix removed |
| Locations.SalesDbPathIgnoresDataDir | restore_from_backup.py:46-51 | with a non-empty URL, the Sales DB path depends neither on the override nor on the configured dir |
| Paths.ToPath | restore_from_backup.py:32-37 | `Path(s)` is absolute exactly when `s` starts with "/", and a part occurs in it exactly when it is a piece between slashes other than "" and "."; `Paths.RenderRoundTrip` states that it inverts `Render` |
| Paths.Normalise | restore_from_backup.py:32-37 | the kept pieces are exactly those other than "" and ".", each with its multiplicity |
| Paths.NormaliseAppend | restore_from_backup.py:32-37 | normalising works piece by piece, so the kept pieces stay in their order |
| Paths.ToPathPlain | restore_from_backup.py:32-37 | a string without slashes is one part, or none when it is "" or "." |
| Paths.ToPathSlash | restore_from_backup.py:32-37 | the parts of `Path(a + "/" + b)` are those of `a` followed by those of `b`, so repeated slashes and "." pieces are dropped anywhere and the order is kept |
| Paths.Render | restore_from_backup.py:37 | `str(p)` is never empty and starts with "/" exactly for an absolute path; `Paths.RenderRoundTrip` states that `ToPath` inverts it |
| Paths.Suffix | restore_from_backup.py:72 | the suffix is a tail of the name that starts with its only dot, has a character after the dot and is not the whole name; "" exactly when the name has no dot, or its last dot is its first or last character |
| Paths.ReplaceSuffix | restore_from_backup.py:72 | `with_suffix`, for the suffixes it accepts (empty, or a dot plus at least one character and no "/"; any other suffix raises ValueError): the result ends with the new suffix and is the name without its old suffix followed by the new one |
| Paths.RenderRoundTrip | restore_from_backup.py:37 | `Path(str(p)) == p` for every normalised path |
| Paths.ReplaceSuffixExtends | restore_from_backup.py:72 | for a name without "/" and an `extra` that is a dot plus at least one character with no "/", `suffix + extra` is a suffix `with_suffix` accepts, and it gives the name with `extra` appended, whatever the old suffix was |
| Files.BackupPath | restore_from_backup.py:71-72 | the backup path has the same root and directory as the DB path, and its name is the DB name + ".bak_" + timestamp |
| Files.BackupPathDiffers | restore_from_backup.py:72-74 | the backup never lands on the database file itself |
| Files.BackupExistingDb | restore_from_backup.py:68-75 | no file: no backup and fs unchanged. Otherwise a backup next to the original with the original content; the original and all other files unchanged. A nameless path fails |
| Files.CopyTree | restore_from_backup.py:55-65 | every source file `r` is at `dest + r` with its content; every key not hit by a source file is as before |
| Files.CopyTreeInOrder | restore_from_backup.py:55-65 | visiting the tree in any order without repeats: the same per-file result and frame as `CopyTree`, and one reported target per source file, so the count is the number of source files |
| Files.CopiedAll | restore_from_backup.py:55-65 | any file system with that per-file result and frame equals `CopyTree`, so the copy is independent of walk order |
| Strings.KeepPrefixed | restore_from_backup.py:118-119 | the kept names are exactly the input names with the prefix, each with its multiplicity |
| Strings.KeepPrefixedAppend | restore_from_backup.py:118-119 | filtering distributes over concatenation, so archive order is kept |
| Strings.Least | restore_from_backup.py:134 | the result is one of the names and is below every name in Python's code-point string order, which `PosixPath` ordering reduces to here |
| Strings.LeastUnique | restore_from_backup.py:134 | a name below all others is the least one, so `sorted(...)[0]` is determined |
| Strings.LeastOfSameNames | restore_from_backup.py:134 | the least name depends only on which names occur |
| Archives.Names | restore_from_backup.py:118-119 | `namelist()`: the members' names, one per member, in archive order |
| Archives.Exists | restore_from_backup.py:133-148 | a directory of the extracted tree exists when some member's cleaned target starts with it; in particular whenever an extracted file lies below it, and never for an empty archive |
| Archives.Extract | restore_from_backup.py:128 | the tree `extractall` leaves has no file at the extraction root itself; `Archives.ExtractHas` and `Archives.ExtractLastWins` state which paths hold a file and whose content |
| Archives.DbCandidates | restore_from_backup.py:133-136 | every name the `*.db` glob in `database/` finds ends in ".db", and there are at most as many as members; `Archives.DbCandidatesAreDbFiles` states exactly which names they are |
| Archives.ExtractHas | restore_from_backup.py:128 | after extraction a path holds a file exactly when some non-directory member targets it |
| Archives.ExtractLastWins | restore_from_backup.py:128 | the content left at a path is the last member written there |
| Archives.DbCandidatesAreDbFiles | restore_from_backup.py:133-136 | a name is a candidate exactly when a regular file of that name lies directly in `database/` and ends in ".db" |
| Archives.Under | restore_from_backup.py:57-61 | the relative files below a directory are exactly the non-empty `r` with `dir + r` in the tree, with the same content |
| Restore.LocationsFor | restore_from_backup.py:113 | whichever app is chosen, a non-empty `--data-dir` is the data dir; otherwise the CRM or Sales rules apply |
| Restore.ChosenDb | restore_from_backup.py:134-143 | the chosen file is a candidate, is present in `database/`, and is below every other candidate |
| Restore.DbSource | restore_from_backup.py:133-138 | there is something to restore exactly when there is a candidate, and it is the chosen candidate's content |
| Restore.ReplaceDb | restore_from_backup.py:139-143 | DB path afterwards holds the new content; a backup exactly when a file was there, named and placed as above, holding the old content; nothing else changes; a nameless path fails |
| Restore.RestoreStorage | restore_from_backup.py:148-153 | skipped (and fs unchanged) exactly when there is no storage dir; otherwise every storage file is at data dir + r, the count is the number of storage files, nothing else changes |
| Restore.ExecuteCopiesStorage | restore_from_backup.py:148-153 | in a full restore each storage file ends up at data dir + r with its content and the report counts them |
| Restore.ExecuteReplacesDb | restore_from_backup.py:133-146 | with a candidate, the DB path ends up with the chosen content and an existing file is backed up first, unless a storage file lands there; exit 1 exactly for a nameless DB path, with no write |
| Restore.ExecuteSkipsDb | restore_from_backup.py:138-153 | without a candidate the DB step is skipped and every key that is not a storage target, the DB path and its backup path among them, keeps its old state; with no storage dir either, nothing is written |
| Restore.ExecuteFrame | restore_from_backup.py:127-153 | only the DB path, its backup path and storage targets can change |
| Restore.Execute | restore_from_backup.py:127-155 | the restore proper exits 0 or 1; exit 1 exactly when the archive has a DB candidate and the DB path is nameless, with nothing written; exit 0 reports a restore of the given app |
| Restore.Main | restore_from_backup.py:99-155 | the run exits 0, 1 or 2, and every non-zero exit leaves the file system as it was; `Restore.MainExecutes` and `Restore.UsageErrorsExit2` state which branch is taken |
| Restore.MainExecutes | restore_from_backup.py:104-155 | once the archive exists and an app is settled, a non-dry run is the restore proper at the resolved locations |
| Restore.UsageErrorsExit2 | restore_from_backup.py:99-111 | exit 2 exactly when the archive is missing, or no `--app` and no marker; then nothing is written |
| Restore.ExplicitAppIsUsed | restore_from_backup.py:104-113 | with the archive present and `--app` given, the run never exits 2 and reports that app |
| Restore.DryRunWritesNothing | restore_from_backup.py:117-125 | a dry run exits 0 and writes nothing. It reports the resolved paths, the count of "storage/" names, and exactly the "database/" names with their multiplicity, in archive order |
| Restore.EmptyArchiveWritesNothing | restore_from_backup.py:133-155 | no DB candidate and no storage dir: exit 0, both steps skipped, file system unchanged |

## Left out

- Zip format: the archive is its members' names and contents. Reading the zip, and corrupt archives, are not modelled.
- `extractall` edge cases are not modelled:
  - a file member whose sanitised path is empty (such as ".." alone): `Archives.Extract` skips it, while zipfile raises, so the program exits with status 1 before writing outside the temporary directory;
  - a member that would need a file to be a directory as well.
- Directories are not stored, so creating them (`mkdir(parents=True)`) has no effect in the model.
- A clash between a file and a directory is not modelled; in the program each raises or misbehaves at the OS level:
  - the archive path is a directory;
  - the database path is a directory other than "." or "/";
  - a `*.db` directory sits in `database/`;
  - `storage` or `database` is a plain file;
  - a parent of a target is a file.
- The temporary directory's lifetime and cleanup are resource handling outside the pure model.
- `shutil.copy2` keeps timestamps and permissions. The model copies contents only, because metadata is OS behaviour.
- `time.strftime`: the timestamp is an input of type `Timestamp`, which has the shape of "%Y%m%d_%H%M%S".
- `get_storage_dir()` and `load_config().data_dir` are inputs, because they are calls into code outside this file.
- `expanduser` is taken as the identity, so "~" is not expanded.
- Argument parsing and printed messages are not modelled. Messages are folded into `Report`.
- I/O failures (permissions, full disk) and partial copies after such a failure are not modelled: they depend on the environment.
- ".." components are kept as names and not resolved, so two spellings of one file are two keys.
- `Paths.ToPath` reads a leading "//" as "/", though pathlib keeps exactly two leading slashes.
- Symbolic links are not modelled, because extraction does not create them.
- Windows paths are not modelled: the model is `PurePosixPath`. On Windows the `*.db` glob and `sorted` ignore case, and backslashes and drive letters change how paths are parsed.
- Files.CopyTreeInOrder: its ensures give the per-file result and the frame, not `out == CopyTree(...)`. `Files.CopiedAll` proves the two are the same.

=== FILE: archives.dfy ===
/** A backup archive as its members in archive order, and the tree
    `ZipFile.extractall` writes into the temporary directory. The byte-level
    zip format is not modelled: each member is its name and its content. */
module Archives {
  import opened Common
  import opened Strings
  import opened Paths

  datatype Entry = Entry(name: string, content: Content)

  type Archive = seq<Entry>

  /** Top-level directory of the extracted tree that holds the storage files. */
  const StorageDir := "storage"

  /** Top-level directory of the extracted tree that holds the database export. */
  const DatabaseDir := "database"

  /** `archive.namelist()` */
  function Names(a: Archive): (names: seq<string>)
    ensures |names| == |a|
    ensures forall i :: 0 <= i < |a| ==> names[i] == a[i].name
  {
    if |a| == 0 then [] else Names(a[..|a| - 1]) + [a[|a| - 1].name]
  }

  /** A member whose name ends in '/' is a directory; extraction only creates it. */
  predicate IsDirEntry(e: Entry) {
    |e.name| > 0 && e.name[|e.name| - 1] == '/'
  }

  /** The components zipfile keeps when it maps a member name below the
      target directory: empty, "." and ".." components are discarded. */
  function SafeParts(pieces: seq<string>): seq<string>
  {
    if |pieces| == 0 then []
    else if !IsPart(pieces[0]) || pieces[0] == ".." then SafeParts(pieces[1..])
    else [pieces[0]] + SafeParts(pieces[1..])
  }

  /** Where a member lands, relative to the extraction directory. */
  function Target(name: string): seq<string>
  {
    SafeParts(Split(name))
  }

  /** Member `e` is written as a regular file at relative path `p`. */
  predicate WritesFile(e: Entry, p: seq<string>) {
    !IsDirEntry(e) && p != [] && Target(e.name) == p
  }

  /** Member `i` is the last one written at `p`, so its content is what
      remains there. */
  predicate LastWriter(a: Archive, i: int, p: seq<string>) {
    0 <= i < |a| && WritesFile(a[i], p) && forall j :: i < j < |a| ==> !WritesFile(a[j], p)
  }

  /** The regular files `extractall` leaves in the extraction directory,
      keyed by relative path: every file member, a later member with the same
      target overwriting an earlier one. The lemmas below say which paths
      are present and whose content they hold. */
  function Extract(a: Archive): (tree: map<seq<string>, Content>)
    ensures forall p :: p in tree ==> p != []
  {
    if |a| == 0 then map[]
    else
      var e := a[|a| - 1];
      var before := Extract(a[..|a| - 1]);
      if IsDirEntry(e) || Target(e.name) == [] then before
      else before[Target(e.name) := e.content]
  }

  /** A path is present after extraction exactly when some file member
      targets it. */
  lemma {:induction false} ExtractHas(a: Archive, p: seq<string>)
    ensures p in Extract(a) <==> exists i :: 0 <= i < |a| && WritesFile(a[i], p)
    decreases |a|
  {
    if |a| > 0 {
      var init := a[..|a| - 1];
      var e := a[|a| - 1];
      ExtractHas(init, p);
      assert p in Extract(a) <==> p in Extract(init) || WritesFile(e, p);
      if i :| 0 <= i < |a| && WritesFile(a[i], p) {
        if i < |init| {
          assert init[i] == a[i];
        }
      }
      if i :| 0 <= i < |init| && WritesFile(init[i], p) {
        assert a[i] == init[i];
      }
    }
  }

  /** What is left at a path is the content of the last member written
      there. */
  lemma {:induction false} ExtractLastWins(a: Archive, i: int, p: seq<string>)
    requires LastWriter(a, i, p)
    ensures p in Extract(a) && Extract(a)[p] == a[i].content
    decreases |a|
  {
    var init := a[..|a| - 1];
    if i < |a| - 1 {
      assert forall j :: 0 <= j < |init| ==> a[j] == init[j];
      ExtractLastWins(init, i, p);
    }
  }

  /** `(extraction_dir / d).exists()`: some member created `d` itself or
      something below it. */
  predicate Exists(a: Archive, d: seq<string>): (present: bool)
    ensures present ==> |a| > 0
    ensures forall p :: p in Extract(a) && |d| <= |p| && p[..|d|] == d ==> present
  {
    FileBelowMeansExists(a, d);
    exists i :: 0 <= i < |a| && |d| <= |Target(a[i].name)| && Target(a[i].name)[..|d|] == d
  }

  /** An extracted file at or below `d` means some member created `d`. */
  lemma FileBelowMeansExists(a: Archive, d: seq<string>)
    ensures forall p :: p in Extract(a) && |d| <= |p| && p[..|d|] == d ==>
              exists i :: 0 <= i < |a| && |d| <= |Target(a[i].name)| && Target(a[i].name)[..|d|] == d
  {
    forall p | p in Extract(a) && |d| <= |p| && p[..|d|] == d
      ensures exists i :: 0 <= i < |a| && |d| <= |Target(a[i].name)| && Target(a[i].name)[..|d|] == d
    {
      ExtractHas(a, p);
      var i :| 0 <= i < |a| && WritesFile(a[i], p);
    }
  }

  /** The regular files strictly below directory `dir` of `tree`, keyed by
      their path relative to `dir` (what `rglob` visits and keeps). */
  function Under(tree: map<seq<string>, Content>, dir: seq<string>): (sub: map<seq<string>, Content>)
    ensures forall rel :: rel in sub <==> |rel| > 0 && dir + rel in tree
    ensures forall rel :: rel in sub ==> sub[rel] == tree[dir + rel]
  {
    var rels := set p | p in tree && |p| > |dir| && p[..|dir|] == dir :: p[|dir|..];
    assert forall p :: |p| > |dir| && p[..|dir|] == dir ==> p == dir + p[|dir|..];
    assert forall rel :: (dir + rel)[..|dir|] == dir && (dir + rel)[|dir|..] == rel;
    map rel | rel in rels :: tree[dir + rel]
  }

  /** The database candidates `sorted(db_dir.glob("*.db"))` draws from: names
      of regular files directly inside `database/` that end in ".db", in
      archive order, possibly repeated. */
  function DbCandidates(a: Archive): (names: seq<string>)
    ensures |names| <= |a|
    ensures forall n :: n in names ==> EndsWith(n, ".db")
  {
    if |a| == 0 then []
    else
      var e := a[|a| - 1];
      var p := Target(e.name);
      DbCandidates(a[..|a| - 1])
        + (if WritesFile(e, p) && |p| == 2 && p[0] == DatabaseDir && EndsWith(p[1], ".db") then [p[1]] else [])
  }

  /** The last member contributes `n` exactly when it is a file written at
      `database/n`. */
  lemma LastMemberCandidate(e: Entry, n: string)
    ensures var p := Target(e.name);
            (WritesFile(e, p) && |p| == 2 && p[0] == DatabaseDir && p[1] == n) <==> WritesFile(e, [DatabaseDir, n])
  {
    var p := Target(e.name);
    if |p| == 2 && p[0] == DatabaseDir && p[1] == n {
      assert p == [DatabaseDir, n];
    }
  }

  lemma {:induction false} DbCandidatesWritten(a: Archive, n: string)
    ensures n in DbCandidates(a) <==> (exists i :: 0 <= i < |a| && WritesFile(a[i], [DatabaseDir, n])) && EndsWith(n, ".db")
    decreases |a|
  {
    if |a| > 0 {
      var init := a[..|a| - 1];
      var e := a[|a| - 1];
      DbCandidatesWritten(init, n);
      LastMemberCandidate(e, n);
      assert n in DbCandidates(a) <==> n in DbCandidates(init) || (WritesFile(e, [DatabaseDir, n]) && EndsWith(n, ".db"));
      if i :| 0 <= i < |a| && WritesFile(a[i], [DatabaseDir, n]) {
        if i < |init| {
          assert init[i] == a[i];
        }
      }
      if i :| 0 <= i < |init| && WritesFile(init[i], [DatabaseDir, n]) {
        assert a[i] == init[i];
      }
    }
  }

  /** A name is a candidate exactly when extraction leaves a regular file of
      that name directly in `database/` and the name matches "*.db". */
  lemma DbCandidatesAreDbFiles(a: Archive, n: string)
    ensures n in DbCandidates(a) <==> [DatabaseDir, n] in Extract(a) && EndsWith(n, ".db")
  {
    ExtractHas(a, [DatabaseDir, n]);
    DbCandidatesWritten(a, n);
  }
}

=== FILE: common.dfy ===
/** Small shared vocabulary: an optional value and file contents as bytes. */
module Common {

  /** The conventional Some/None datatype, standing for Python's `Optional`. */
  datatype Option<+T> = None | Some(value: T)

  newtype byte = x: int | 0 <= x < 256

  /** The bytes of a regular file or of an archive member. */
  type Content = seq<byte>
}

=== FILE: detection.dfy ===
/** Which application a backup belongs to: decided by marker members in the
    archive, unless the caller names the application explicitly. */
module Detection {
  import opened Common

  /** Member whose presence marks a CRM backup; it takes priority. */
  const CrmMarker := "exports/ps_crm.sql"

  /** Member whose presence marks a Sales backup. */
  const SalesMarker := "exports/ps_sales.sql"

  datatype App = Crm | Sales

  /** `_detect_app`: looks the markers up in the set of member names, the CRM
      marker first. */
  function DetectApp(names: seq<string>): (app: Option<App>)
    ensures app == Some(Crm) <==> CrmMarker in names
    ensures app == Some(Sales) <==> CrmMarker !in names && SalesMarker in names
    ensures app == None <==> CrmMarker !in names && SalesMarker !in names
  {
    var present := set n | n in names;
    if CrmMarker in present then Some(Crm)
    else if SalesMarker in present then Some(Sales)
    else None
  }

  /** Only which names occur matters: not their order, not repetitions. */
  lemma DetectSeesOnlyNameSet(a: seq<string>, b: seq<string>)
    requires forall n :: n in a <==> n in b
    ensures DetectApp(a) == DetectApp(b)
  {
  }

  /** Members other than the two markers never change the verdict. */
  lemma DetectIgnoresOtherMembers(names: seq<string>, others: seq<string>)
    requires CrmMarker !in others && SalesMarker !in others
    ensures DetectApp(names + others) == DetectApp(names)
  {
  }

  /** `args.app or _detect_app(archive)`: an explicit choice is taken as is. */
  function ChooseApp(flag: Option<App>, names: seq<string>): (app: Option<App>)
    ensures flag.Some? ==> app == flag
    ensures flag.None? ==> app == DetectApp(names)
  {
    if flag.Some? then flag else DetectApp(names)
  }

  /** An explicit choice is not checked against the archive: it is the result
      whatever the members are, markers of the other application included. */
  lemma ExplicitAppIgnoresArchive(app: App, a: seq<string>, b: seq<string>)
    ensures ChooseApp(Some(app), a) == ChooseApp(Some(app), b) == Some(app)
  {
  }
}

=== FILE: files.dfy ===
/** The destination file system and the two writing steps of a restore:
    copying an existing database aside, and copying a tree of files under a
    destination directory. Directories are implicit: a file's key lists every
    directory above it, so creating parent directories changes nothing here. */
module Files {
  import opened Common
  import opened Strings
  import opened Paths

  /** Regular files by resolved absolute path (components below the root). */
  type FileSystem = map<seq<string>, Content>

  predicate IsDigit(c: char) {
    '0' <= c <= '9'
  }

  /** The shape of `time.strftime("%Y%m%d_%H%M%S")`. */
  predicate IsTimestamp(ts: string) {
    |ts| == 15 && ts[8] == '_' && forall i :: 0 <= i < |ts| && i != 8 ==> IsDigit(ts[i])
  }

  /** A local clock reading as the backup suffix spells it. */
  type Timestamp = ts: string | IsTimestamp(ts) witness "20240101_120000"

  lemma TimestampHasNoSlash(ts: Timestamp)
    ensures '/' !in ts
  {
  }

  lemma BackupNameIsPart(name: string, ts: Timestamp)
    requires IsPart(name)
    ensures IsPart(name + ".bak_" + ts)
  {
    TimestampHasNoSlash(ts);
    assert '/' !in ".bak_";
  }

  /** `db_path.with_suffix(db_path.suffix + ".bak_" + timestamp)`. The new
      suffix starts with a dot and holds no separator, so `with_suffix`
      accepts it; the path must have a name. */
  function BackupPath(db: Path, ts: Timestamp): (b: Path)
    requires |db.parts| > 0
    ensures b.absolute == db.absolute
    ensures |b.parts| == |db.parts| && ParentParts(b) == ParentParts(db)
    ensures Name(b) == Name(db) + ".bak_" + ts
  {
    var name := Name(db);
    ReplaceSuffixExtends(name, ".bak_" + ts);
    var newName := ReplaceSuffix(name, Suffix(name) + (".bak_" + ts));
    assert newName == name + ".bak_" + ts;
    BackupNameIsPart(name, ts);
    var parts := ParentParts(db) + [newName];
    assert forall i :: 0 <= i < |parts| - 1 ==> parts[i] == db.parts[i];
    PurePath(db.absolute, parts)
  }

  /** The backup never lands on the database file itself. */
  lemma BackupPathDiffers(db: Path, ts: Timestamp, cwd: seq<string>)
    requires |db.parts| > 0
    ensures Resolve(BackupPath(db, ts), cwd) != Resolve(db, cwd)
  {
    var b := BackupPath(db, ts);
    var rb := Resolve(b, cwd);
    var rd := Resolve(db, cwd);
    assert |rb| == |rd|;
    assert rb[|rb| - 1] == Name(b);
    assert rd[|rd| - 1] == Name(db);
    assert |Name(b)| > |Name(db)|;
  }

  datatype BackupOutcome =
    | NothingToBackUp
      /** The copy was written at `path`, giving file system `fs`. */
    | BackedUp(path: Path, fs: FileSystem)
      /** `with_suffix` raises ValueError: the database path is "." or "/". */
    | EmptyName

  /** `_backup_existing_db`. A path without a name is the working directory or
      the root, which always exists, so it reaches `with_suffix` and fails. */
  function BackupExistingDb(db: Path, cwd: seq<string>, ts: Timestamp, fs: FileSystem): (r: BackupOutcome)
    ensures r.EmptyName? <==> |db.parts| == 0
    ensures r.NothingToBackUp? <==> |db.parts| > 0 && Resolve(db, cwd) !in fs
    ensures r.BackedUp? ==>
              && r.path.absolute == db.absolute
              && |r.path.parts| == |db.parts| > 0
              && ParentParts(r.path) == ParentParts(db)
              && Name(r.path) == Name(db) + ".bak_" + ts
              && Resolve(r.path, cwd) in r.fs
              && r.fs[Resolve(r.path, cwd)] == fs[Resolve(db, cwd)]
              && r.fs.Keys == fs.Keys + {Resolve(r.path, cwd)}
              && (forall k :: k in fs && k != Resolve(r.path, cwd) ==> r.fs[k] == fs[k])
    ensures r.BackedUp? ==> Resolve(db, cwd) in r.fs && r.fs[Resolve(db, cwd)] == fs[Resolve(db, cwd)]
  {
    if |db.parts| == 0 then EmptyName
    else if Resolve(db, cwd) !in fs then NothingToBackUp
    else
      var b := BackupPath(db, ts);
      BackupPathDiffers(db, ts, cwd);
      BackedUp(b, fs[Resolve(b, cwd) := fs[Resolve(db, cwd)]])
  }

  // ---------------------------------------------------------------------------
  // Tree copy.

  /** Key `k` is `dest / rel` for a file `rel` of the source tree. */
  predicate Hit(rels: set<seq<string>>, dest: seq<string>, k: seq<string>) {
    |k| >= |dest| && k[..|dest|] == dest && k[|dest|..] in rels
  }

  /** `_copy_tree` as a whole: every source file `rel` is written at
      `dest / rel` with the same content, and nothing else changes. */
  function CopyTree(src: map<seq<string>, Content>, dest: seq<string>, fs: FileSystem): (r: FileSystem)
    ensures forall rel :: rel in src ==> dest + rel in r && r[dest + rel] == src[rel]
    ensures forall k :: !Hit(src.Keys, dest, k) ==> (k in r <==> k in fs)
    ensures forall k :: !Hit(src.Keys, dest, k) && k in fs ==> r[k] == fs[k]
  {
    var targets := set rel | rel in src :: dest + rel;
    assert forall rel :: (dest + rel)[..|dest|] == dest && (dest + rel)[|dest|..] == rel;
    assert forall k :: Hit(src.Keys, dest, k) ==> k == dest + k[|dest|..];
    map k | k in fs.Keys + targets :: if Hit(src.Keys, dest, k) then src[k[|dest|..]] else fs[k]
  }

  /** `out` is `fs` after copying the source files in `rels`: each of them is
      at its target, and every other key is as it was. */
  ghost predicate CopiedSoFar(src: map<seq<string>, Content>, rels: set<seq<string>>, dest: seq<string>,
                        fs: FileSystem, out: FileSystem) {
    && rels <= src.Keys
    && (forall rel :: rel in rels ==> dest + rel in out && out[dest + rel] == src[rel])
    && (forall k :: !Hit(rels, dest, k) ==> (k in out <==> k in fs))
    && (forall k :: !Hit(rels, dest, k) && k in fs ==> out[k] == fs[k])
  }

  lemma CopiedOneMore(src: map<seq<string>, Content>, rels: set<seq<string>>, rel: seq<string>,
                      dest: seq<string>, fs: FileSystem, out: FileSystem)
    requires CopiedSoFar(src, rels, dest, fs, out)
    requires rel in src
    ensures CopiedSoFar(src, rels + {rel}, dest, fs, out[dest + rel := src[rel]])
    ensures Hit(src.Keys, dest, dest + rel)
  {
    assert (dest + rel)[..|dest|] == dest && (dest + rel)[|dest|..] == rel;
    forall k | !Hit(rels + {rel}, dest, k)
      ensures !Hit(rels, dest, k) && k != dest + rel
    {
    }
  }

  /** Once every source file is copied, the result is the whole-tree copy. */
  lemma CopiedAll(src: map<seq<string>, Content>, dest: seq<string>, fs: FileSystem, out: FileSystem)
    requires CopiedSoFar(src, src.Keys, dest, fs, out)
    ensures out == CopyTree(src, dest, fs)
  {
    var whole := CopyTree(src, dest, fs);
    forall k
      ensures k in out <==> k in whole
      ensures k in out ==> out[k] == whole[k]
    {
      if Hit(src.Keys, dest, k) {
        assert k == dest + k[|dest|..];
      }
    }
  }

  /** The source files visited before position `i` of the walk. */
  function Visited(src: map<seq<string>, Content>, walk: seq<seq<string>>, i: nat): (done: set<seq<string>>)
    requires i <= |walk|
    ensures forall rel :: rel in done <==> rel in src && rel in walk[..i]
  {
    set rel | rel in walk[..i] && rel in src
  }

  lemma VisitStep(src: map<seq<string>, Content>, walk: seq<seq<string>>, i: nat)
    requires i < |walk|
    requires forall i, j :: 0 <= i < j < |walk| ==> walk[i] != walk[j]
    ensures walk[i] in src ==> walk[i] !in Visited(src, walk, i)
    ensures walk[i] in src ==> Visited(src, walk, i + 1) == Visited(src, walk, i) + {walk[i]}
    ensures walk[i] !in src ==> Visited(src, walk, i + 1) == Visited(src, walk, i)
  {
    assert walk[..i + 1] == walk[..i] + [walk[i]];
  }

  lemma VisitedAll(src: map<seq<string>, Content>, walk: seq<seq<string>>)
    requires forall rel :: rel in src ==> rel in walk
    ensures Visited(src, walk, |walk|) == src.Keys
  {
    assert walk[..|walk|] == walk;
  }

  /** `_copy_tree` step by step: `walk` is the order `rglob` visits the
      source directory in (files and directories, each once); paths that are
      not source files are skipped. Whatever the order, every source file
      reaches its target, nothing else changes (so, by `CopiedAll`, the
      result is `CopyTree`) and one target is reported per source file. */
  method CopyTreeInOrder(src: map<seq<string>, Content>, dest: seq<string>, fs: FileSystem, walk: seq<seq<string>>)
    returns (out: FileSystem, copied: seq<seq<string>>)
    requires forall rel :: rel in src ==> rel in walk
    requires forall i, j :: 0 <= i < j < |walk| ==> walk[i] != walk[j]
    ensures forall rel :: rel in src ==> dest + rel in out && out[dest + rel] == src[rel]
    ensures forall k :: !Hit(src.Keys, dest, k) ==> (k in out <==> k in fs)
    ensures forall k :: !Hit(src.Keys, dest, k) && k in fs ==> out[k] == fs[k]
    ensures |copied| == |src|
    ensures forall j :: 0 <= j < |copied| ==> Hit(src.Keys, dest, copied[j])
    ensures forall rel :: rel in src ==> dest + rel in copied
  {
    out := fs;
    copied := [];
    var i := 0;
    while i < |walk|
      invariant 0 <= i <= |walk|
      invariant CopiedSoFar(src, Visited(src, walk, i), dest, fs, out)
      invariant |copied| == |Visited(src, walk, i)|
      invariant forall j :: 0 <= j < |copied| ==> Hit(src.Keys, dest, copied[j])
      invariant forall rel :: rel in Visited(src, walk, i) ==> dest + rel in copied
    {
      var rel := walk[i];
      VisitStep(src, walk, i);
      if rel in src {
        CopiedOneMore(src, Visited(src, walk, i), rel, dest, fs, out);
        out := out[dest + rel := src[rel]];
        copied := copied + [dest + rel];
      }
      i := i + 1;
    }
    VisitedAll(src, walk);
  }
}

=== FILE: locations.dfy ===
/** Where a restore writes: the data directory and the database file of each
    application, resolved from an optional override, environment variables and
    injected defaults. */
module Locations {
  import opened Common
  import opened Strings
  import opened Paths

  /** The process environment. */
  type Env = map<string, string>

  const StorageDirVar := "APP_STORAGE_DIR"
  const DbPathVar := "DB_PATH"
  const SalesDbUrlVar := "PS_SALES_DB_URL"
  const CrmDbName := "ps_crm.db"
  const SalesDbName := "ps_sales.db"
  const SqlitePrefix := "sqlite:///"

  datatype Locations = Locations(dataDir: Path, dbPath: Path)

  /** `os.getenv(key, default)` */
  function GetEnv(env: Env, key: string, default: string): string
  {
    if key in env then env[key] else default
  }

  /** `if data_dir_override:` holds: given and non-empty. */
  predicate HasOverride(dataDirOverride: Option<string>) {
    dataDirOverride.Some? && dataDirOverride.value != ""
  }

  /** `_crm_paths`. `storageDir` is what `get_storage_dir()` returns. */
  function CrmPaths(dataDirOverride: Option<string>, env: Env, storageDir: Path): (loc: Locations)
    ensures HasOverride(dataDirOverride) ==> loc.dataDir == ToPath(dataDirOverride.value)
    ensures !HasOverride(dataDirOverride) && StorageDirVar in env ==> loc.dataDir == ToPath(env[StorageDirVar])
    ensures !HasOverride(dataDirOverride) && StorageDirVar !in env ==> loc.dataDir == storageDir
    ensures DbPathVar in env ==> loc.dbPath == ToPath(env[DbPathVar])
    ensures DbPathVar !in env ==> loc.dbPath == Join(loc.dataDir, [CrmDbName])
  {
    var baseDir :=
      if HasOverride(dataDirOverride) then ToPath(dataDirOverride.value)
      else if StorageDirVar in env then ToPath(env[StorageDirVar])
      else storageDir;
    var defaultDb := Join(baseDir, [CrmDbName]);
    RenderRoundTrip(defaultDb);
    Locations(baseDir, ToPath(GetEnv(env, DbPathVar, Render(defaultDb))))
  }

  /** With `DB_PATH` set, the CRM database path ignores the data directory
      override. */
  lemma CrmDbPathIgnoresOverride(o1: Option<string>, o2: Option<string>, env: Env, storageDir: Path)
    requires DbPathVar in env
    ensures CrmPaths(o1, env, storageDir).dbPath == CrmPaths(o2, env, storageDir).dbPath
  {
  }

  /** An empty `APP_STORAGE_DIR` is used, not skipped: it names the working
      directory. */
  lemma CrmEmptyStorageVarIsUsed(env: Env, storageDir: Path)
    requires StorageDirVar in env && env[StorageDirVar] == ""
    ensures CrmPaths(None, env, storageDir).dataDir == PurePath(false, [])
  {
    assert Split("") == [""];
  }

  /** `_sales_paths`. `configDataDir` is `load_config().data_dir`. */
  function SalesPaths(dataDirOverride: Option<string>, env: Env, configDataDir: Path): (loc: Locations)
    ensures HasOverride(dataDirOverride) ==> loc.dataDir == ToPath(dataDirOverride.value)
    ensures !HasOverride(dataDirOverride) ==> loc.dataDir == configDataDir
    ensures GetEnv(env, SalesDbUrlVar, "") == "" ==> loc.dbPath == Join(loc.dataDir, [SalesDbName])
    ensures var url := GetEnv(env, SalesDbUrlVar, "");
            url != "" && !StartsWith(url, SqlitePrefix) ==> loc.dbPath == ToPath(url)
  {
    var dataDir := if HasOverride(dataDirOverride) then ToPath(dataDirOverride.value) else configDataDir;
    var url := GetEnv(env, SalesDbUrlVar, "");
    var dbPath :=
      if url != "" then (if StartsWith(url, SqlitePrefix) then ToPath(DropPrefix(url, SqlitePrefix)) else ToPath(url))
      else Join(dataDir, [SalesDbName]);
    Locations(dataDir, dbPath)
  }

  /** A `sqlite:///` URL loses exactly that prefix: "sqlite:////abs/x.db"
      gives the absolute path "/abs/x.db", "sqlite:///x.db" the relative
      path "x.db". */
  lemma SalesSqliteUrlStripped(dataDirOverride: Option<string>, env: Env, configDataDir: Path, rest: string)
    requires SalesDbUrlVar in env && env[SalesDbUrlVar] == SqlitePrefix + rest
    ensures SalesPaths(dataDirOverride, env, configDataDir).dbPath == ToPath(rest)
  {
    var url := SqlitePrefix + rest;
    assert StartsWith(url, SqlitePrefix);
    assert DropPrefix(url, SqlitePrefix) == rest;
  }

  /** With a non-empty database URL, the Sales database path ignores the data
      directory override and the configured data directory. */
  lemma SalesDbPathIgnoresDataDir(o1: Option<string>, o2: Option<string>, env: Env, d1: Path, d2: Path)
    requires GetEnv(env, SalesDbUrlVar, "") != ""
    ensures SalesPaths(o1, env, d1).dbPath == SalesPaths(o2, env, d2).dbPath
  {
  }
}

=== FILE: paths.dfy ===
/** POSIX paths as pathlib sees them: an optional root and a list of
    normalised components, plus the string conversions `Path(s)` and `str(p)`,
    `p.name`, `p.suffix` and `p.with_suffix(...)`, and resolution against the
    working directory into the component list that keys the file system. */
module Paths {
  import opened Strings

  datatype PurePath = PurePath(absolute: bool, parts: seq<string>)

  /** A component pathlib keeps after parsing: never empty, never ".", no separator. */
  predicate IsPart(c: string) {
    c != "" && c != "." && '/' !in c
  }

  predicate AllParts(cs: seq<string>) {
    forall i :: 0 <= i < |cs| ==> IsPart(cs[i])
  }

  /** Every pathlib path is normalised; `Path` is the type of such values. */
  type Path = p: PurePath | AllParts(p.parts) witness PurePath(false, [])

  /** `s.split('/')` */
  function Split(s: string): (pieces: seq<string>)
    ensures |pieces| >= 1
  {
    if |s| == 0 then [""]
    else
      var rest := Split(s[1..]);
      if s[0] == '/' then [""] + rest else [[s[0]] + rest[0]] + rest[1..]
  }

  /** `'/'.join(pieces)` */
  function JoinParts(pieces: seq<string>): string
  {
    if |pieces| == 0 then ""
    else if |pieces| == 1 then pieces[0]
    else pieces[0] + "/" + JoinParts(pieces[1..])
  }

  /** The pieces pathlib keeps: it drops empty pieces (repeated or trailing
      slashes) and "." pieces. */
  function Normalise(pieces: seq<string>): (cs: seq<string>)
    ensures AllParts(cs)
    ensures forall c :: c in cs <==> c in pieces && IsPart(c)
    ensures forall c :: multiset(cs)[c] == if IsPart(c) then multiset(pieces)[c] else 0
  {
    if |pieces| == 0 then []
    else
      assert pieces == [pieces[0]] + pieces[1..];
      if !IsPart(pieces[0]) then Normalise(pieces[1..])
      else [pieces[0]] + Normalise(pieces[1..])
  }

  /** Normalising keeps the order of the pieces: it works piece by piece. */
  lemma {:induction false} NormaliseAppend(a: seq<string>, b: seq<string>)
    ensures Normalise(a + b) == Normalise(a) + Normalise(b)
  {
    if |a| == 0 {
      assert a + b == b;
    } else {
      assert (a + b)[0] == a[0];
      assert (a + b)[1..] == a[1..] + b;
      NormaliseAppend(a[1..], b);
    }
  }

  /** `PurePosixPath(s)` */
  function ToPath(s: string): (p: Path)
    ensures p.absolute <==> |s| > 0 && s[0] == '/'
    ensures forall c :: c in p.parts <==> c in Split(s) && IsPart(c)
  {
    PurePath(|s| > 0 && s[0] == '/', Normalise(Split(s)))
  }

  /** A string without slashes is one piece: one part, or none for "" and ".". */
  lemma {:induction false} ToPathPlain(s: string)
    requires '/' !in s
    ensures ToPath(s).parts == if IsPart(s) then [s] else []
  {
    SplitAfterPlainPrefix(s, "");
    assert s + "" == s;
  }

  /** `Path(a + "/" + b)` has the parts of `a` followed by the parts of `b`,
      so repeated slashes and "." pieces anywhere are dropped and the rest
      keeps its order. */
  lemma {:induction false} ToPathSlash(a: string, b: string)
    ensures ToPath(a + "/" + b).parts == ToPath(a).parts + ToPath(b).parts
  {
    SplitSlash(a, b);
    NormaliseAppend(Split(a), Split(b));
  }

  lemma {:induction false} SplitSlash(a: string, b: string)
    ensures Split(a + "/" + b) == Split(a) + Split(b)
    decreases |a|
  {
    if |a| == 0 {
      assert a + "/" + b == "/" + b;
    } else {
      var t := a + "/" + b;
      assert t[0] == a[0];
      assert t[1..] == a[1..] + "/" + b;
      SplitSlash(a[1..], b);
    }
  }

  /** `str(p)`: "." for the empty relative path, "/" for the root. */
  function Render(p: Path): (r: string)
    ensures |r| > 0
    ensures r[0] == '/' <==> p.absolute
  {
    if p.absolute then "/" + JoinParts(p.parts)
    else if |p.parts| == 0 then "."
    else JoinParts(p.parts)
  }

  /** `p / c1 / c2 / ...` for components that are already normalised. */
  function Join(p: Path, rel: seq<string>): (q: Path)
    requires AllParts(rel)
    ensures q.absolute == p.absolute
    ensures |q.parts| == |p.parts| + |rel|
    ensures q.parts[..|p.parts|] == p.parts && q.parts[|p.parts|..] == rel
  {
    PurePath(p.absolute, p.parts + rel)
  }

  /** `p.name`: the last component, or "" for the root and for ".". */
  function Name(p: Path): string
  {
    if |p.parts| == 0 then "" else p.parts[|p.parts| - 1]
  }

  /** The components of the directory holding `p`. */
  function ParentParts(p: Path): seq<string>
    requires |p.parts| > 0
  {
    p.parts[..|p.parts| - 1]
  }

  /** The file-system key a path denotes: relative paths are taken from the
      working directory `cwd`. */
  function Resolve(p: Path, cwd: seq<string>): (key: seq<string>)
    ensures |key| >= |p.parts|
    ensures key[|key| - |p.parts|..] == p.parts
    ensures p.absolute ==> key == p.parts
  {
    (if p.absolute then [] else cwd) + p.parts
  }

  // ---------------------------------------------------------------------------
  // `str` and `Path` are inverse on normalised paths.

  lemma {:induction false} SplitAfterPlainPrefix(a: string, t: string)
    requires '/' !in a
    ensures Split(a + t) == [a + Split(t)[0]] + Split(t)[1..]
    decreases |a|
  {
    if |a| == 0 {
      assert a + t == t;
      assert a + Split(t)[0] == Split(t)[0];
    } else {
      assert (a + t)[0] == a[0];
      assert (a + t)[1..] == a[1..] + t;
      SplitAfterPlainPrefix(a[1..], t);
      assert [a[0]] + (a[1..] + Split(t)[0]) == a + Split(t)[0];
    }
  }

  lemma {:induction false} SplitJoinParts(pieces: seq<string>)
    requires |pieces| >= 1
    requires forall i :: 0 <= i < |pieces| ==> '/' !in pieces[i]
    ensures Split(JoinParts(pieces)) == pieces
    decreases |pieces|
  {
    if |pieces| == 1 {
      SplitAfterPlainPrefix(pieces[0], "");
      assert pieces[0] + "" == pieces[0];
    } else {
      var tail := JoinParts(pieces[1..]);
      SplitJoinParts(pieces[1..]);
      var t := "/" + tail;
      assert t[1..] == tail;
      assert Split(t) == [""] + pieces[1..];
      assert pieces[0] + "/" + tail == pieces[0] + t;
      SplitAfterPlainPrefix(pieces[0], t);
      assert pieces[0] + "" == pieces[0];
      assert pieces == [pieces[0]] + pieces[1..];
    }
  }

  lemma {:induction false} NormaliseKeepsParts(cs: seq<string>)
    requires AllParts(cs)
    ensures Normalise(cs) == cs
    decreases |cs|
  {
    if |cs| > 0 {
      NormaliseKeepsParts(cs[1..]);
      assert cs == [cs[0]] + cs[1..];
    }
  }

  lemma AbsoluteRoundTrip(p: Path)
    requires p.absolute
    ensures ToPath("/" + JoinParts(p.parts)) == p
  {
    var s := "/" + JoinParts(p.parts);
    assert s[0] == '/' && s[1..] == JoinParts(p.parts);
    if |p.parts| == 0 {
      assert Split(s[1..]) == [""];
      assert Split(s) == ["", ""];
      assert Normalise(["", ""]) == [];
      assert p.parts == [];
    } else {
      SplitJoinParts(p.parts);
      assert Split(s) == [""] + p.parts;
      NormaliseKeepsParts(p.parts);
    }
  }

  lemma RelativeRoundTrip(p: Path)
    requires !p.absolute && |p.parts| > 0
    ensures ToPath(JoinParts(p.parts)) == p
  {
    var s := JoinParts(p.parts);
    if |p.parts| > 1 {
      assert s == p.parts[0] + ("/" + JoinParts(p.parts[1..]));
    }
    assert s[0] == p.parts[0][0];
    SplitJoinParts(p.parts);
    NormaliseKeepsParts(p.parts);
  }

  /** `Path(str(p)) == p` for every path. */
  lemma RenderRoundTrip(p: Path)
    ensures ToPath(Render(p)) == p
  {
    if p.absolute {
      AbsoluteRoundTrip(p);
    } else if |p.parts| == 0 {
      var s := ".";
      assert s[1..] == "" && [s[0]] + "" == ".";
      assert Split(s) == ["."];
    } else {
      RelativeRoundTrip(p);
    }
  }

  // ---------------------------------------------------------------------------
  // Suffixes.

  /** `name.rfind('.')`: the index of the last dot, -1 when there is none. */
  function LastDot(name: string): (i: int)
    ensures -1 <= i < |name|
    ensures i >= 0 ==> name[i] == '.'
    ensures forall j :: i < j < |name| ==> name[j] != '.'
  {
    if |name| == 0 then -1
    else if name[|name| - 1] == '.' then |name| - 1
    else LastDot(name[..|name| - 1])
  }

  /** `PurePath(name).suffix`: from the last dot on, unless that dot starts
      the name or ends it. */
  function Suffix(name: string): (suf: string)
    ensures EndsWith(name, suf)
    ensures suf == "" || (suf[0] == '.' && |suf| >= 2 && |suf| < |name|)
    ensures suf != "" ==> '.' !in suf[1..]
    ensures suf == "" ==> forall i :: 0 < i < |name| - 1 && name[i] == '.' ==> '.' in name[i + 1..]
  {
    var i := LastDot(name);
    if 0 < i < |name| - 1 then name[i..] else ""
  }

  /** A suffix `with_suffix` accepts: empty, or a dot followed by at least
      one character, with no separator. It raises ValueError otherwise. */
  predicate ValidSuffix(suffix: string) {
    suffix == "" || (suffix[0] == '.' && suffix != "." && '/' !in suffix)
  }

  /** The name `with_suffix(suffix)` gives: the old suffix replaced, or the
      new one appended when there was none. */
  function ReplaceSuffix(name: string, suffix: string): (r: string)
    requires ValidSuffix(suffix)
    ensures EndsWith(r, suffix)
    ensures |r| == |name| - |Suffix(name)| + |suffix|
    ensures r[..|r| - |suffix|] == name[..|name| - |Suffix(name)|]
  {
    var prior := Suffix(name);
    if prior == "" then name + suffix else name[..|name| - |prior|] + suffix
  }

  /** Replacing a name's suffix with that same suffix followed by `extra`
      appends `extra` to the whole name. */
  lemma ReplaceSuffixExtends(name: string, extra: string)
    requires '/' !in name
    requires |extra| >= 2 && extra[0] == '.' && '/' !in extra
    ensures ValidSuffix(Suffix(name) + extra)
    ensures ReplaceSuffix(name, Suffix(name) + extra) == name + extra
  {
    var prior := Suffix(name);
    if prior != "" {
      assert name == name[..|name| - |prior|] + prior;
    }
  }
}

=== FILE: restore.dfy ===
/** The decision flow of the restore command: find the archive, settle the
    application, resolve where to write, then either report (dry run) or
    restore the database and the storage tree. Everything the program prints
    is folded into a `Report`; what it writes is the returned file system. */
module Restore {
  import opened Common
  import opened Strings
  import opened Paths
  import opened Archives
  import opened Detection
  import opened Locations
  import opened Files

  /** The command line: `--backup`, `--app`, `--data-dir`, `--dry-run`. */
  datatype Args = Args(backup: string, app: Option<App>, dataDir: Option<string>, dryRun: bool)

  /** What the program reads from its surroundings: the environment, the
      working directory, `get_storage_dir()`, `load_config().data_dir` and the
      local time as `strftime` formats it. */
  datatype Host = Host(env: Env, cwd: seq<string>, storageDir: Path, configDataDir: Path, timestamp: Timestamp)

  datatype DbStep =
    | DbSkipped
      /** The database was restored, after copying the old one to `backup` if there was one. */
    | DbRestored(backup: Option<Path>)

  datatype StorageStep = StorageSkipped | StorageRestored(count: nat)

  datatype Report =
    | ArchiveNotFound
    | AppUnknown
      /** The database path has no name, so `with_suffix` raised ValueError. */
    | DbPathHasNoName
    | DryRun(app: App, dataDir: Path, dbPath: Path, storageCount: nat, dbFiles: seq<string>)
    | Restored(app: App, dataDir: Path, dbPath: Path, db: DbStep, storage: StorageStep)

  datatype Outcome = Outcome(exitCode: int, report: Report, fs: FileSystem)

  const StoragePrefix := "storage/"
  const DatabasePrefix := "database/"

  /** `_crm_paths(args.data_dir) if app == "crm" else _sales_paths(args.data_dir)` */
  function LocationsFor(app: App, args: Args, host: Host): (loc: Locations)
    ensures HasOverride(args.dataDir) ==> loc.dataDir == ToPath(args.dataDir.value)
    ensures app == Crm ==> loc == CrmPaths(args.dataDir, host.env, host.storageDir)
    ensures app == Sales ==> loc == SalesPaths(args.dataDir, host.env, host.configDataDir)
  {
    if app == Crm then CrmPaths(args.dataDir, host.env, host.storageDir)
    else SalesPaths(args.dataDir, host.env, host.configDataDir)
  }

  /** The database file restore picks: the least candidate name. */
  function ChosenDb(a: Archive): (chosen: string)
    requires |DbCandidates(a)| > 0
    ensures chosen in DbCandidates(a)
    ensures [DatabaseDir, chosen] in Extract(a) && EndsWith(chosen, ".db")
    ensures forall n :: n in DbCandidates(a) ==> Below(chosen, n)
  {
    var m := Least(DbCandidates(a));
    DbCandidatesAreDbFiles(a, m);
    m
  }

  /** The content restore copies to the database path: that of the least
      candidate, or nothing when `database/` holds no "*.db" file. */
  function DbSource(a: Archive): (src: Option<Content>)
    ensures src.None? <==> |DbCandidates(a)| == 0
    ensures src.Some? ==> src.value == Extract(a)[[DatabaseDir, ChosenDb(a)]]
  {
    if |DbCandidates(a)| == 0 then None else Some(Extract(a)[[DatabaseDir, ChosenDb(a)]])
  }

  datatype DbResult =
    | NoName
    | Written(backup: Option<Path>, fs: FileSystem)

  /** Lines 139-143: back up the database file if one exists, then overwrite
      it with `content`. */
  function ReplaceDb(content: Content, db: Path, cwd: seq<string>, ts: Timestamp, fs: FileSystem): (r: DbResult)
    ensures r.NoName? <==> |db.parts| == 0
    ensures r.Written? ==> Resolve(db, cwd) in r.fs && r.fs[Resolve(db, cwd)] == content
    ensures r.Written? ==> (r.backup.Some? <==> Resolve(db, cwd) in fs)
    ensures r.Written? && r.backup.Some? ==>
              && Name(r.backup.value) == Name(db) + ".bak_" + ts
              && r.backup.value.absolute == db.absolute
              && |r.backup.value.parts| == |db.parts| > 0
              && ParentParts(r.backup.value) == ParentParts(db)
              && Resolve(r.backup.value, cwd) != Resolve(db, cwd)
              && Resolve(r.backup.value, cwd) in r.fs
              && r.fs[Resolve(r.backup.value, cwd)] == fs[Resolve(db, cwd)]
    ensures r.Written? ==>
              forall k :: k != Resolve(db, cwd) && (r.backup.None? || k != Resolve(r.backup.value, cwd)) ==>
                (k in r.fs <==> k in fs) && (k in fs ==> r.fs[k] == fs[k])
  {
    match BackupExistingDb(db, cwd, ts, fs)
    case EmptyName => NoName
    case NothingToBackUp => Written(None, fs[Resolve(db, cwd) := content])
    case BackedUp(b, saved) =>
      BackupPathDiffers(db, ts, cwd);
      Written(Some(b), saved[Resolve(db, cwd) := content])
  }

  /** The storage files of the archive, keyed by path below `storage/`. */
  function StorageFiles(a: Archive): map<seq<string>, Content>
  {
    Under(Extract(a), [StorageDir])
  }

  /** Lines 148-153: copy the storage tree, if the archive has one. */
  function RestoreStorage(a: Archive, dataDir: Path, cwd: seq<string>, fs: FileSystem): (r: (StorageStep, FileSystem))
    ensures r.0.StorageSkipped? <==> !Exists(a, [StorageDir])
    ensures r.0.StorageSkipped? ==> r.1 == fs
    ensures r.0.StorageRestored? ==> r.0.count == |StorageFiles(a)|
    ensures forall rel :: rel in StorageFiles(a) ==>
              Resolve(dataDir, cwd) + rel in r.1 && r.1[Resolve(dataDir, cwd) + rel] == StorageFiles(a)[rel]
    ensures forall k :: !Hit(StorageFiles(a).Keys, Resolve(dataDir, cwd), k) ==>
              (k in r.1 <==> k in fs) && (k in fs ==> r.1[k] == fs[k])
  {
    if Exists(a, [StorageDir]) then
      (StorageRestored(|StorageFiles(a)|), CopyTree(StorageFiles(a), Resolve(dataDir, cwd), fs))
    else
      NoStorageDirNoStorageFiles(a);
      (StorageSkipped, fs)
  }

  /** Lines 127-155: the restore proper, once the application and its
      locations are settled. */
  function Execute(app: App, loc: Locations, a: Archive, cwd: seq<string>, ts: Timestamp, fs: FileSystem): (o: Outcome)
    ensures o.exitCode == 0 || o.exitCode == 1
    ensures o.exitCode == 1 <==> o.report.DbPathHasNoName?
    ensures o.exitCode == 1 <==> |DbCandidates(a)| > 0 && |loc.dbPath.parts| == 0
    ensures o.exitCode == 1 ==> o.fs == fs
    ensures o.exitCode == 0 ==> o.report.Restored? && o.report.app == app
  {
    match DbSource(a)
    case None =>
      var (storage, fs') := RestoreStorage(a, loc.dataDir, cwd, fs);
      Outcome(0, Restored(app, loc.dataDir, loc.dbPath, DbSkipped, storage), fs')
    case Some(content) =>
      match ReplaceDb(content, loc.dbPath, cwd, ts, fs)
      case NoName => Outcome(1, DbPathHasNoName, fs)
      case Written(backup, fs1) =>
        var (storage, fs') := RestoreStorage(a, loc.dataDir, cwd, fs1);
        Outcome(0, Restored(app, loc.dataDir, loc.dbPath, DbRestored(backup), storage), fs')
  }

  /** `main`, lines 99-155. `a` is the content of the archive file at
      `args.backup`. */
  function Main(args: Args, host: Host, a: Archive, fs: FileSystem): (o: Outcome)
    ensures o.exitCode == 0 || o.exitCode == 1 || o.exitCode == 2
    ensures o.exitCode != 0 ==> o.fs == fs
  {
    if Resolve(ToPath(args.backup), host.cwd) !in fs then Outcome(2, ArchiveNotFound, fs)
    else
      match ChooseApp(args.app, Names(a))
      case None => Outcome(2, AppUnknown, fs)
      case Some(app) =>
        var loc := LocationsFor(app, args, host);
        if args.dryRun then
          var storageNames := KeepPrefixed(Names(a), StoragePrefix);
          var dbNames := KeepPrefixed(Names(a), DatabasePrefix);
          Outcome(0, DryRun(app, loc.dataDir, loc.dbPath, |storageNames|, dbNames), fs)
        else Execute(app, loc, a, host.cwd, host.timestamp, fs)
  }

  // ---------------------------------------------------------------------------
  // Properties of the restore proper.

  /** Every storage file reaches the data directory with its content, and
      the report counts the storage files. */
  lemma ExecuteCopiesStorage(app: App, loc: Locations, a: Archive, cwd: seq<string>, ts: Timestamp, fs: FileSystem,
                             rel: seq<string>)
    requires rel in StorageFiles(a)
    ensures var o := Execute(app, loc, a, cwd, ts, fs);
            var dataKey := Resolve(loc.dataDir, cwd);
            o.report.DbPathHasNoName? ||
            (&& o.report.Restored?
             && o.report.storage == StorageRestored(|StorageFiles(a)|)
             && dataKey + rel in o.fs
             && o.fs[dataKey + rel] == StorageFiles(a)[rel])
  {
    StorageFileMeansStorageDir(a, rel);
  }

  /** The database step: fails only for a path without a name, writes the
      least candidate, and backs up an existing file first. */
  lemma ExecuteReplacesDb(app: App, loc: Locations, a: Archive, cwd: seq<string>, ts: Timestamp, fs: FileSystem)
    requires |DbCandidates(a)| > 0
    ensures var o := Execute(app, loc, a, cwd, ts, fs);
            var dbKey := Resolve(loc.dbPath, cwd);
            var storage := StorageFiles(a).Keys;
            var dataKey := Resolve(loc.dataDir, cwd);
            && (o.exitCode == 1 <==> |loc.dbPath.parts| == 0)
            && (o.exitCode == 1 ==> o.fs == fs && o.report == DbPathHasNoName)
            && (o.exitCode != 1 ==>
                  && o.exitCode == 0
                  && o.report.Restored?
                  && o.report.db.DbRestored?
                  && (!Hit(storage, dataKey, dbKey) ==> dbKey in o.fs && o.fs[dbKey] == Extract(a)[[DatabaseDir, ChosenDb(a)]])
                  && (o.report.db.backup.Some? <==> dbKey in fs)
                  && (o.report.db.backup.Some? ==>
                        var b := o.report.db.backup.value;
                        && Name(b) == Name(loc.dbPath) + ".bak_" + ts
                        && |b.parts| == |loc.dbPath.parts| > 0
                        && ParentParts(b) == ParentParts(loc.dbPath)
                        && (!Hit(storage, dataKey, Resolve(b, cwd)) ==>
                              Resolve(b, cwd) in o.fs && o.fs[Resolve(b, cwd)] == fs[dbKey])))
  {
    var content := Extract(a)[[DatabaseDir, ChosenDb(a)]];
    assert DbSource(a) == Some(content);
    var r := ReplaceDb(content, loc.dbPath, cwd, ts, fs);
    var o := Execute(app, loc, a, cwd, ts, fs);
    if r.NoName? {
      assert o == Outcome(1, DbPathHasNoName, fs);
    } else {
      var st := RestoreStorage(a, loc.dataDir, cwd, r.fs);
      assert o == Outcome(0, Restored(app, loc.dataDir, loc.dbPath, DbRestored(r.backup), st.0), st.1);
    }
  }

  /** Without a candidate the database path is left to the storage step. */
  lemma ExecuteSkipsDb(app: App, loc: Locations, a: Archive, cwd: seq<string>, ts: Timestamp, fs: FileSystem)
    requires |DbCandidates(a)| == 0
    ensures var o := Execute(app, loc, a, cwd, ts, fs);
            o.exitCode == 0 && o.report.Restored? && o.report.db == DbSkipped
            && (!Exists(a, [StorageDir]) ==> o.fs == fs && o.report.storage == StorageSkipped)
    ensures var o := Execute(app, loc, a, cwd, ts, fs);
            forall k :: !Hit(StorageFiles(a).Keys, Resolve(loc.dataDir, cwd), k) ==>
              (k in o.fs <==> k in fs) && (k in fs ==> o.fs[k] == fs[k])
  {
  }

  /** Only the database path, its backup and storage targets change. */
  lemma ExecuteFrame(app: App, loc: Locations, a: Archive, cwd: seq<string>, ts: Timestamp, fs: FileSystem,
                     k: seq<string>)
    requires k != Resolve(loc.dbPath, cwd)
    requires !Hit(StorageFiles(a).Keys, Resolve(loc.dataDir, cwd), k)
    requires |loc.dbPath.parts| > 0 ==> k != Resolve(BackupPath(loc.dbPath, ts), cwd)
    ensures var o := Execute(app, loc, a, cwd, ts, fs);
            (k in o.fs <==> k in fs) && (k in fs ==> o.fs[k] == fs[k])
  {
    var o := Execute(app, loc, a, cwd, ts, fs);
    match DbSource(a)
    case None =>
      var st := RestoreStorage(a, loc.dataDir, cwd, fs);
      assert o.fs == st.1;
    case Some(content) =>
      var r := ReplaceDb(content, loc.dbPath, cwd, ts, fs);
      if r.Written? {
        if r.backup.Some? {
          assert BackupExistingDb(loc.dbPath, cwd, ts, fs).BackedUp?;
          assert r.backup.value == BackupPath(loc.dbPath, ts);
        }
        var st := RestoreStorage(a, loc.dataDir, cwd, r.fs);
        assert o.fs == st.1;
      }
  }

  /** A storage file exists only if the storage directory does. */
  lemma StorageFileMeansStorageDir(a: Archive, rel: seq<string>)
    requires rel in StorageFiles(a)
    ensures Exists(a, [StorageDir])
  {
    var p := [StorageDir] + rel;
    ExtractHas(a, p);
    var i :| 0 <= i < |a| && WritesFile(a[i], p);
    assert Target(a[i].name)[..1] == [StorageDir];
  }

  lemma NoStorageDirNoStorageFiles(a: Archive)
    requires !Exists(a, [StorageDir])
    ensures StorageFiles(a) == map[]
  {
    if rel :| rel in StorageFiles(a) {
      StorageFileMeansStorageDir(a, rel);
    }
  }

  // ---------------------------------------------------------------------------
  // Properties of a whole run.

  /** True when the archive file is present and an application was settled. */
  predicate Proceeds(args: Args, host: Host, a: Archive, fs: FileSystem) {
    Resolve(ToPath(args.backup), host.cwd) in fs && ChooseApp(args.app, Names(a)).Some?
  }

  /** Where a proceeding run writes. */
  function Where(args: Args, host: Host, a: Archive, fs: FileSystem): Locations
    requires Proceeds(args, host, a, fs)
  {
    LocationsFor(ChooseApp(args.app, Names(a)).value, args, host)
  }

  /** The application a report names, if any. */
  function ReportedApp(report: Report): Option<App>
  {
    match report
    case DryRun(app, _, _, _, _) => Some(app)
    case Restored(app, _, _, _, _) => Some(app)
    case _ => None
  }

  /** A run that proceeds past the usage checks is the restore proper. */
  lemma MainExecutes(args: Args, host: Host, a: Archive, fs: FileSystem)
    requires Proceeds(args, host, a, fs) && !args.dryRun
    ensures Main(args, host, a, fs)
         == Execute(ChooseApp(args.app, Names(a)).value, Where(args, host, a, fs), a, host.cwd, host.timestamp, fs)
  {
  }

  /** Exit code 2 exactly when the archive is missing, or when no `--app` was
      given and neither marker is in the archive; in both cases nothing is
      written. */
  lemma UsageErrorsExit2(args: Args, host: Host, a: Archive, fs: FileSystem)
    ensures var o := Main(args, host, a, fs);
            o.exitCode == 2 <==>
              Resolve(ToPath(args.backup), host.cwd) !in fs
              || (args.app.None? && CrmMarker !in Names(a) && SalesMarker !in Names(a))
    ensures Main(args, host, a, fs).exitCode == 2 ==> Main(args, host, a, fs).fs == fs
  {
  }

  /** An explicit `--app` is the application the run reports, whatever the
      archive holds. */
  lemma ExplicitAppIsUsed(args: Args, host: Host, a: Archive, fs: FileSystem)
    requires Resolve(ToPath(args.backup), host.cwd) in fs && args.app.Some?
    ensures var o := Main(args, host, a, fs);
            o.exitCode != 2 && (o.report.DbPathHasNoName? || ReportedApp(o.report) == args.app)
  {
  }

  /** A dry run writes nothing, succeeds, counts the members under
      "storage/" and lists those under "database/" in archive order. */
  lemma DryRunWritesNothing(args: Args, host: Host, a: Archive, fs: FileSystem)
    requires Proceeds(args, host, a, fs) && args.dryRun
    ensures var o := Main(args, host, a, fs);
            && o.exitCode == 0
            && o.fs == fs
            && o.report.DryRun?
            && o.report.dataDir == Where(args, host, a, fs).dataDir
            && o.report.dbPath == Where(args, host, a, fs).dbPath
            && o.report.storageCount == |KeepPrefixed(Names(a), StoragePrefix)|
            && (forall n :: n in o.report.dbFiles <==> n in Names(a) && StartsWith(n, DatabasePrefix))
            && (forall n :: multiset(o.report.dbFiles)[n] == if StartsWith(n, DatabasePrefix) then multiset(Names(a))[n] else 0)
            && o.report.dbFiles == KeepPrefixed(Names(a), DatabasePrefix)
  {
  }

  /** An archive with neither a database file nor a storage directory
      restores nothing: success, both steps skipped, no file written. */
  lemma EmptyArchiveWritesNothing(args: Args, host: Host, a: Archive, fs: FileSystem)
    requires Proceeds(args, host, a, fs) && !args.dryRun
    requires |DbCandidates(a)| == 0 && !Exists(a, [StorageDir])
    ensures var o := Main(args, host, a, fs);
            o.exitCode == 0 && o.fs == fs && o.report.db == DbSkipped && o.report.storage == StorageSkipped
  {
    MainExecutes(args, host, a, fs);
    ExecuteSkipsDb(ChooseApp(args.app, Names(a)).value, Where(args, host, a, fs), a, host.cwd, host.timestamp, fs);
  }
}

=== FILE: strings.dfy ===
/** String helpers with the meaning Python gives them: prefix and suffix tests,
    list filtering by prefix, and the code-point ordering used by `sorted`. */
module Strings {

  /** `s.startswith(prefix)` */
  predicate StartsWith(s: string, prefix: string) {
    |prefix| <= |s| && s[..|prefix|] == prefix
  }

  /** `s.endswith(suffix)` */
  predicate EndsWith(s: string, suffix: string) {
    |suffix| <= |s| && s[|s| - |suffix|..] == suffix
  }

  /** `s[len(prefix):]` for a string known to start with `prefix`. */
  function DropPrefix(s: string, prefix: string): (rest: string)
    requires StartsWith(s, prefix)
    ensures prefix + rest == s
    ensures |rest| == |s| - |prefix|
  {
    s[|prefix|..]
  }

  /** `[n for n in names if n.startswith(prefix)]`: the names that start with
      `prefix`, each as often as it occurs, in their original order. */
  function KeepPrefixed(names: seq<string>, prefix: string): (kept: seq<string>)
    ensures |kept| <= |names|
    ensures forall x :: x in kept <==> x in names && StartsWith(x, prefix)
    ensures forall x :: multiset(kept)[x] == if StartsWith(x, prefix) then multiset(names)[x] else 0
  {
    if |names| == 0 then []
    else
      assert names == [names[0]] + names[1..];
      (if StartsWith(names[0], prefix) then [names[0]] else []) + KeepPrefixed(names[1..], prefix)
  }

  /** Filtering distributes over concatenation, so the kept names keep the
      relative order they had in the input. */
  lemma {:induction false} KeepPrefixedAppend(a: seq<string>, b: seq<string>, prefix: string)
    ensures KeepPrefixed(a + b, prefix) == KeepPrefixed(a, prefix) + KeepPrefixed(b, prefix)
  {
    if |a| == 0 {
      assert a + b == b;
    } else {
      assert (a + b)[1..] == a[1..] + b;
      KeepPrefixedAppend(a[1..], b, prefix);
    }
  }

  /** `a <= b` on Python strings: lexicographic on code points, a proper prefix
      sorting first. */
  predicate Below(a: string, b: string)
    decreases |a|
  {
    |a| == 0 || (|b| > 0 && (a[0] < b[0] || (a[0] == b[0] && Below(a[1..], b[1..]))))
  }

  lemma {:induction false} BelowReflexive(a: string)
    ensures Below(a, a)
    decreases |a|
  {
    if |a| > 0 {
      BelowReflexive(a[1..]);
    }
  }

  lemma {:induction false} BelowTotal(a: string, b: string)
    ensures Below(a, b) || Below(b, a)
    decreases |a|
  {
    if |a| > 0 && |b| > 0 && a[0] == b[0] {
      BelowTotal(a[1..], b[1..]);
    }
  }

  lemma {:induction false} BelowAntisymmetric(a: string, b: string)
    requires Below(a, b) && Below(b, a)
    ensures a == b
    decreases |a|
  {
    if |a| > 0 {
      BelowAntisymmetric(a[1..], b[1..]);
      assert a == [a[0]] + a[1..];
      assert b == [b[0]] + b[1..];
    }
  }

  lemma {:induction false} BelowTransitive(a: string, b: string, c: string)
    requires Below(a, b) && Below(b, c)
    ensures Below(a, c)
    decreases |a|
  {
    if |a| > 0 && a[0] == b[0] && b[0] == c[0] {
      BelowTransitive(a[1..], b[1..], c[1..]);
    }
  }

  /** `sorted(names)[0]`: the least name in Python's string order. */
  function Least(names: seq<string>): (m: string)
    requires |names| > 0
    ensures m in names
    ensures forall i :: 0 <= i < |names| ==> Below(m, names[i])
  {
    if |names| == 1 then
      BelowReflexive(names[0]);
      names[0]
    else
      var rest := Least(names[1..]);
      BelowTotal(names[0], rest);
      if Below(names[0], rest) then
        BelowReflexive(names[0]);
        forall i | 1 <= i < |names|
          ensures Below(names[0], names[i])
        {
          assert names[i] == names[1..][i - 1];
          BelowTransitive(names[0], rest, names[i]);
        }
        names[0]
      else
        assert forall i :: 1 <= i < |names| ==> names[i] == names[1..][i - 1];
        rest
  }

  /** The least name is the only name that is below every other one, so it is
      what `sorted(...)[0]` returns whatever order the input came in. */
  lemma LeastUnique(names: seq<string>, m: string)
    requires |names| > 0
    requires m in names
    requires forall i :: 0 <= i < |names| ==> Below(m, names[i])
    ensures m == Least(names)
  {
    var l := Least(names);
    var i :| 0 <= i < |names| && names[i] == l;
    var j :| 0 <= j < |names| && names[j] == m;
    BelowAntisymmetric(m, l);
  }

  /** The choice depends only on which names occur, not on their order or
      multiplicity. */
  lemma LeastOfSameNames(a: seq<string>, b: seq<string>)
    requires |a| > 0
    requires forall x :: x in a <==> x in b
    ensures |b| > 0 && Least(a) == Least(b)
  {
    var m := Least(a);
    assert m in b;
    forall i | 0 <= i < |b|
      ensures Below(m, b[i])
    {
      assert b[i] in a;
    }
    LeastUnique(b, m);
  }
}
